=== FILE: README.md ===
# YouTube embed tool for a block editor, modelled in Dafny

The tool is one block type of a block-structured editor. The block stores one
record, `{url}`. When it is rendered, it shows either a text input with an
"Embed" button (editing) or an iframe playing the video (embedded). The user
pastes a YouTube link and presses the button. A link the tool recognises is
normalised to `https://www.youtube.com/embed/<11-unit id>`, written back into
the record and shown in an iframe. A link it does not recognise raises an
alert and marks the input invalid. When the block is rendered with a record that
already holds a URL, an embed is attempted at once; an invalid URL raises the
alert. The input drops line feeds and carriage returns from the URL it is seeded
with, and the attempt uses the text the input holds.

The project has three modules:

- `Wrappers` (`wrappers.dfy`) holds the `Option` type. It stands for
  JavaScript's `null`/`undefined`.
- `YoutubeUrl` (`youtube_url.dfy`) models the two pure helpers that share one
  regular expression, `__isValidURL` and `_convertToEmbedUrl`.
  - The backtracking match is written out as a deterministic matcher. The
    greedy `^.*` makes the marker group start at the rightmost position in the
    first line where one of the five markers (`youtu.be/` with any unit in place of the dot, `v/`, `/u/\w/`,
    `embed/`, `watch?`) begins.
  - The optional `?`, `v` and `=` are then each taken when present.
  - Group 7 is the longest following run free of `#`, `&` and `?`.
  - The matcher is proved equal to this declarative description. Its
    uniqueness lemmas make the description a definition of the result.
- `Embed` (`youtube_embed.dfy`) models the `YoutubeEmbed` object as a class.
  - Its fields are the ones the source updates in place: `isEditing`, the
    wrapper's content and the input element.
  - The user's alerts are kept as a log.
  - The record is a separate `VideoRecord` object, which the tool mutates and
    `Save` hands back.
  - The class invariant `Valid` says that once the block has left editing, the
    record holds a normalised URL and the iframe shows exactly that URL.

Normalisation is not idempotent on all of its own outputs. The `v?=?` after
`embed/` swallows a first id unit `v` or `=` (both units of a leading `v=`), and
the units left (10 or 9) fail the length test. So converting
`https://www.youtube.com/embed/vXXXXXXXXXX` gives the
fallback video `wvLddabQ1nc` (lemma `ConvertEmbedUrl`). The same happens to a
short link `youtu.be/v…` (lemma `ShortLinkConverts`).

This has a visible effect in the widget. A saved block whose id begins with `v`
is re-rendered, and rendering converts the stored URL again. The record then
holds the fallback video instead of the user's video (method `Reopen`). For an
id of YouTube's alphabet (letters, digits, `_`, `-`) that does not begin with
`v`, re-rendering leaves the record unchanged (`Reopen`). The same holds for any
stored id without `/` and without line feed or carriage return that does not
begin with `v` or `=` (`ConvertTwice`, with `StripNewlinesKeepsClean` for the
input the re-render goes through).
Other stored ids can be lost too. For example, pasting `watch?==aaaaaaaaaa`
stores `…/embed/=aaaaaaaaaa`. Pasting `watch?u/a/bbbbbbb` stores
`…/embed/u/a/bbbbbbb`, in which `/u/a/` becomes the rightmost marker on the next
conversion. Both fall back to the default video when re-rendered.

A JavaScript string is a sequence of UTF-16 code units, and the model reads one
`char` as one unit. This is exact for characters up to U+FFFF. A `char` above
U+FFFF has no single-unit counterpart, because JavaScript counts it as two
units. Strings holding such characters are outside the model (see "## Left
out").

## Model

| member | source | states |
|---|---|---|
| YoutubeUrl.SkipOptional | src/index.js:125 | a greedy optional unit `c?`: it advances by one exactly when `c` is present |
| YoutubeUrl.IdStart | src/index.js:125 | `\??v?=?` after the marker: group 7 starts at most 3 units later, and every unit skipped is `?`, `v` or `=` |
| YoutubeUrl.IdStartSkipsOptionals | src/index.js:125 | the units `\??v?=?` skips are `?`, `v`, `=`, each at most once and in that order |
| YoutubeUrl.IdStartIsGreedy | src/index.js:125 | the skip is greedy: no longer stretch from the marker's end (up to 3 units) is one `\??v?=?` could match, so each of `?`, `v`, `=` is taken when present |
| YoutubeUrl.MarkerShape | src/index.js:125 | a matching marker alternative fits in the string, starts and ends with its fixed units (`/` or `?` last) and contains no line terminator |
| YoutubeUrl.MarkersExclusive | src/index.js:125 | at most one of the five marker alternatives matches at any position, so the alternation is deterministic |
| YoutubeUrl.MarkerMatches | src/index.js:125 | the five alternatives of the marker group: `youtu.be/` with any unit but a line terminator for the dot, `v/`, `/u/` plus a word unit plus `/`, `embed/`, `watch?` |
| YoutubeUrl.MarkerAt | src/index.js:125 | the alternative taken at a position is `Some(m)` exactly when alternative `m` matches there |
| YoutubeUrl.FirstLineEnd | src/index.js:125 | `.` stops at the first line terminator: the result is that index (or the length), and no earlier unit ends a line |
| YoutubeUrl.RightmostMarker | src/index.js:125 | backtracking of `^.*` from the right: the result is a marker position no larger than the bound, and no marker starts between it and the bound |
| YoutubeUrl.IdRun | src/index.js:125 | group 7 `([^#&?]*)` captures the longest run free of `#`, `&`, `?` |
| YoutubeUrl.LongestRunUnique | src/index.js:125 | there is one longest such run from a given position |
| YoutubeUrl.RightmostMarkerUnique | src/index.js:125 | the position where the marker group starts, and the marker taken there, are unique |
| YoutubeUrl.Match | src/index.js:125-126 | `url.match(regExp)` succeeds exactly when a marker begins in the first line; then the marker is the rightmost one, group 7 starts after the optional `?`, `v`, `=`, and it is the longest run free of `#&?` |
| YoutubeUrl.IsValidUrl | src/index.js:137-142 | the empty string is invalid; otherwise a URL is valid exactly when some marker begins in its first line |
| YoutubeUrl.ConvertToEmbedUrl | src/index.js:124-130 | the result is always the embed prefix followed by 11 units free of `#&?`; an invalid URL gives the fallback video |
| YoutubeUrl.ConvertFromRightmostMarker | src/index.js:125-129 | given the rightmost marker and the longest run after the optional `?v=`, the result is the prefix plus that run when it has 11 units, and the fallback otherwise |
| YoutubeUrl.ConvertEmbedUrl | src/index.js:124-130 | converting a normalised URL whose id is free of `/` gives it back if and only if the id does not begin with `v` or `=`; otherwise it gives the fallback |
| YoutubeUrl.FallbackIsFixedPoint | src/index.js:129 | the fallback URL converts to itself |
| YoutubeUrl.ConvertTwice | src/index.js:124-130 | a second conversion is the identity on any first result whose id has no `/` and does not begin with `v` or `=` |
| YoutubeUrl.EmbedUrlIsValid | src/index.js:137-142 | every normalised URL is accepted by `__isValidURL` |
| YoutubeUrl.VideoIdIsClean | src/index.js:125 | an id of letters, digits, `_`, `-` holds no `/`, `#`, `&` or `?` |
| YoutubeUrl.VideoIdIsEmbeddable | src/index.js:128 | the prefix followed by an 11-unit id of letters, digits, `_`, `-` is a normalised URL |
| YoutubeUrl.VideoUrlReconverts | src/index.js:124-130 | the embed URL of a YouTube-alphabet id is valid, and converts to itself unless the id begins with `v`, when it gives the fallback |
| YoutubeUrl.ShortLinkConverts | src/index.js:124-130 | for an 11-unit `id` of YouTube's alphabet (letters, digits, `_`, `-`), `https://www.youtu.be/<id>` is valid and converts to the embed URL of `id`, or to the fallback when `id` begins with `v` |
| YoutubeUrl.WatchLinkConverts | src/index.js:124-130 | for an 11-unit `id` of YouTube's alphabet, `https://www.youtube.com/watch?v=<id>`, followed by nothing or by parameters from `&` or `#` that hold no `/` or `?`, is valid and converts to the embed URL of `id` (a `/` or `?` in the parameters can start a later marker) |
| YoutubeUrl.WithoutSlashOrQuestionIsInvalid | src/index.js:137-142 | every marker ends in `/` or `?`, so a string with neither is invalid and converts to the fallback |
| YoutubeUrl.OtherSiteIsInvalid | src/index.js:137-142 | `https://` followed by a host with no path or query is invalid and converts to the fallback |
| Embed.OrDefault | src/index.js:74-82 | a configuration key with its default: the result is the default or the configured non-empty text, which wins when present; a non-empty default never gives `''` |
| Embed.StripNewlines | src/index.js:77 | assigning an input's value: the result has no line feed or carriage return, and is never longer |
| Embed.StripNewlinesUnit | src/index.js:77 | a line feed or carriage return is deleted, not replaced, and every other unit is kept; with `StripNewlinesAppend` this fixes the result for every string |
| Embed.StripNewlinesKeepsClean | src/index.js:77 | a text without line breaks passes through the input unchanged |
| Embed.StripNewlinesAppend | src/index.js:77 | stripping works unit by unit: it distributes over concatenation |
| Embed.InputSeed | src/index.js:77 | the input starts with the record's url minus its line breaks, or `''` when there is no url |
| Embed.InputSeedJoinsLines | src/index.js:77 | a url spread over two lines reaches the input as the two lines joined |
| Embed.StrippedEmbedUrlIsValid | src/index.js:77 | a stored normalised URL is still non-empty and valid once the input has stripped it, so a re-render embeds again |
| Embed.VideoUrlSeed | src/index.js:77 | the embed URL of a YouTube-alphabet id reaches the input unchanged |
| Embed.YoutubeEmbed.InvalidText | src/index.js:103 | the alert text is the configured `invalidText` when it is present and non-empty, and the default otherwise; never empty |
| Embed.YoutubeEmbed.FreshInput | src/index.js:75-78 | the new input holds the given text and is not marked invalid; its class and placeholder are each the configured value when present and non-empty, and the default otherwise |
| Embed.YoutubeEmbed.EditingWrapper | src/index.js:73-86 | the new wrapper is in the editing state; its wrapper class, button class and button text are each the configured value when present and non-empty, and the default otherwise |
| Embed.YoutubeEmbed.Valid | src/index.js:101-119 | the tool's invariant: an input exists once rendered; once embedded, the input is unmarked and the iframe shows the record's url; once out of editing, the record holds a normalised URL |
| Embed.YoutubeEmbed.constructor | src/index.js:60-66 | keeps the record and read-only flag, uses `{}` when no configuration is given, and starts in editing with no wrapper |
| Embed.YoutubeEmbed.CreateYoutubeIframe | src/index.js:101-119 | an invalid link alerts the configured or default text, marks the input invalid and changes nothing else; a valid one clears the mark, leaves editing, stores the normalised URL in the record and replaces the wrapper content by an iframe showing it; the invariant is kept |
| Embed.YoutubeEmbed.Click | src/index.js:88-90 | pressing the button runs the embed transition on the input's current text |
| Embed.YoutubeEmbed.Render | src/index.js:72-96 | builds a fresh editing wrapper with the configured or default classes, placeholder and button text, seeded with the record's url minus its line breaks, or `''`; a non-empty seed runs the embed transition at once; a block already embedded is embedded again |
| Embed.YoutubeEmbed.Save | src/index.js:149-151 | returns the record object itself, which holds a normalised URL once the block has left editing |
| Embed.PasteShortLink | src/index.js:72-119 | on a new block, pasting a short link of an id not beginning with `v` saves and shows that video's embed URL, with no alert |
| Embed.PasteOtherSite | src/index.js:72-119 | on a new block, pasting a link to another site saves nothing, keeps the editing view, marks the input invalid and alerts once with the default text |
| Embed.Reopen | src/index.js:72-96 | rendering a block saved with an embed URL embeds it at once; the record keeps its URL unless the id begins with `v`, in which case it becomes the fallback video |

## Left out

- The `toolbox` and `isReadOnlySupported` static getters (src/index.js:39-53) and the icon and stylesheet imports (src/index.js:4, 8). They are static metadata with no behaviour.
- The `readOnly` flag is stored (src/index.js:62) but never read by the tool, so it affects nothing here.
- DOM details are left out. These are element creation, the `ce-yte__container` and `ce-yte__iframe` classes, the `allowfullscreen` and `type="button"` attributes, and the clearing of `innerHTML`. The wrapper is modelled by what it holds: an input and a button, or one iframe with its `src`.
- Event wiring is not modelled as such. A press of the button is the method `Click`, which may run while the wrapper still holds the input and button.
- `alert` is modelled as an entry in the `alerts` log. `console.log` (src/index.js:138) is left out, since it is output only.
- Cases where the source throws are excluded by preconditions. These are a `data` that is `null` or `undefined` (src/index.js:110), and an embed transition while the wrapper holds no input (src/index.js:104, 107). A configured class holding whitespace is also not modelled: `classList.add` throws on it (src/index.js:74, 76, 81), while the model's `Render` accepts any class text.
- Record values that are not strings are left out. The url is `Option<string>`, where `None` stands for a missing url.
- The host editor changing the record between calls is not modelled.
- Surrogate code units cannot be represented, because Dafny's `char` excludes them. Matching still works per code unit, but strings holding lone or paired surrogates are outside the model.
- YoutubeUrl.ConvertToEmbedUrl and YoutubeUrl.IsEmbedUrl count one `char` as one unit. A `char` above U+FFFF is one `char` in the model but two code units in JavaScript, so the 11-unit length test at src/index.js:127 differs for strings holding one. For example, the model keeps `…/embed/` followed by U+1F600 and ten `a`, while the source sees 12 units and falls back. Strings holding such characters are outside the model.
- Embed.Reopen and Embed.PasteShortLink are stated for ids of YouTube's alphabet (letters, digits, `_`, `-`), not for every string. Other inputs are covered by the general lemmas of `YoutubeUrl`.
- Embed.YoutubeEmbed.Click: takes the typed text as given. In the source a text input never holds a line feed or carriage return, and the model does not enforce that on `typed`.

=== FILE: wrappers.dfy ===
/** An optional value: JavaScript's null / undefined on one side, a value on the other. */
module Wrappers {

  datatype Option<+T> = None | Some(value: T)
}

=== FILE: youtube_embed.dfy ===
/**
 * The YouTube embed tool: one block of the editor. The editor constructs it with the
 * block's record, calls `Render` to get its element, and calls `Save` to read the record
 * back. The block has two states: editing (an input and an Embed button) and embedded
 * (one iframe). It moves from the first to the second only when a valid link is submitted,
 * and never moves back.
 */
module Embed {
  import opened Wrappers
  import opened YoutubeUrl

  const DefaultWrapperClass: string := "ce-yte"
  const DefaultInputClass: string := "ce-yte__input"
  const DefaultPlaceholder: string := "Paste youtube link here"
  const DefaultButtonClass: string := "ce-yte__button"
  const DefaultButtonText: string := "Embed"
  const DefaultInvalidText: string := "Invalid Youtube Video Url"

  /** The tool's configuration: every key is optional (None when absent). */
  datatype Config = Config(
    wrapperClass: Option<string>,
    inputClass: Option<string>,
    inputPlaceholder: Option<string>,
    buttonClass: Option<string>,
    buttonText: Option<string>,
    invalidText: Option<string>)

  /** `config || {}`: the configuration used when none is given. */
  const NoConfig: Config := Config(None, None, None, None, None, None)

  /**
   * `r` is what `value || fallback` gives on strings: the configured value when it is present
   * and not empty, the default otherwise.
   */
  predicate IsSetting(value: Option<string>, fallback: string, r: string) {
    (value.Some? && value.value != "" ==> r == value.value) &&
    (value.None? || value.value == "" ==> r == fallback)
  }

  /** `value || fallback`: a missing or empty string gives way to the default. */
  function OrDefault(value: Option<string>, fallback: string): (r: string)
    ensures r == fallback || (value == Some(r) && r != "")
    ensures value.Some? && value.value != "" ==> r == value.value
    ensures fallback != "" ==> r != ""
  {
    if value.Some? && value.value != "" then value.value else fallback
  }

  predicate IsNewline(c: char) {
    c == '\n' || c == '\r'
  }

  predicate HasNoNewline(s: string) {
    forall j :: 0 <= j < |s| ==> !IsNewline(s[j])
  }

  /**
   * A text input's value sanitisation: assigning a value removes every line feed and
   * carriage return and keeps the other units in order.
   */
  function StripNewlines(s: string): (r: string)
    ensures HasNoNewline(r)
    ensures |r| <= |s|
  {
    if s == [] then []
    else (if IsNewline(s[0]) then [] else [s[0]]) + StripNewlines(s[1..])
  }

  /** A string without line breaks passes through unchanged. */
  lemma {:induction false} StripNewlinesKeepsClean(s: string)
    requires HasNoNewline(s)
    ensures StripNewlines(s) == s
  {
    if s != [] {
      assert HasNoNewline(s[1..]) by {
        forall j | 0 <= j < |s| - 1 ensures !IsNewline(s[1..][j]) {
          assert s[1..][j] == s[j + 1];
        }
      }
      StripNewlinesKeepsClean(s[1..]);
      assert s == [s[0]] + s[1..];
    }
  }

  /** A single unit is dropped when it is a line feed or a carriage return, and kept otherwise. */
  lemma StripNewlinesUnit(c: char)
    ensures StripNewlines([c]) == if IsNewline(c) then [] else [c]
  {
    assert [c][1..] == [];
  }

  /** Stripping works unit by unit, so it distributes over concatenation. */
  lemma {:induction false} StripNewlinesAppend(a: string, b: string)
    ensures StripNewlines(a + b) == StripNewlines(a) + StripNewlines(b)
  {
    if a == [] {
      assert a + b == b;
    } else {
      assert (a + b)[0] == a[0] && (a + b)[1..] == a[1..] + b;
      StripNewlinesAppend(a[1..], b);
    }
  }

  /** A url spread over two lines reaches the input as one line: the break is dropped. */
  lemma InputSeedJoinsLines(a: string, b: string)
    ensures InputSeed(Some(a + "\n" + b)) == StripNewlines(a) + StripNewlines(b)
  {
    StripNewlinesAppend(a + "\n", b);
    StripNewlinesAppend(a, "\n");
  }

  /**
   * A stored embed URL stays valid once the input has stripped it: the prefix holds no
   * line break, so `embed/` still begins in the first line. (Group 7 may have captured a
   * line break, which the stripping removes from the id.)
   */
  lemma StrippedEmbedUrlIsValid(u: string)
    requires IsEmbedUrl(u)
    ensures StripNewlines(u) != "" && IsValidUrl(StripNewlines(u))
  {
    var id := u[|EmbedPrefix|..];
    assert u == EmbedPrefix + id;
    forall j | 0 <= j < |EmbedPrefix| ensures !IsNewline(EmbedPrefix[j]) {
      PrefixUnitIsPrintable(j);
    }
    StripNewlinesKeepsClean(EmbedPrefix);
    StripNewlinesAppend(EmbedPrefix, id);
    PrefixedIsValid(StripNewlines(id));
  }

  /**
   * `input.value = this.data.url ? this.data.url : ''`: the text the input holds after
   * the assignment, which has dropped the url's line feeds and carriage returns.
   */
  function InputSeed(url: Option<string>): (seed: string)
    ensures HasNoNewline(seed)
    ensures url.None? ==> seed == ""
    ensures url.Some? ==> seed == StripNewlines(url.value)
  {
    if url.Some? then StripNewlines(url.value) else ""
  }

  /** The text input: its text, class and placeholder, and whether it carries the invalid mark. */
  datatype Input = Input(text: string, cssClass: string, placeholder: string, invalid: bool)

  /** What the wrapper element holds. */
  datatype Wrapper =
    | Unrendered                                                   // before the first render
    | Editing(cssClass: string, buttonClass: string, buttonText: string)  // the input and the Embed button
    | Embedded(cssClass: string, iframeSrc: string)                 // one container holding the iframe

  /** The block's data, `{url}`: owned by the editor, updated in place by the tool. */
  class VideoRecord {
    var url: Option<string>

    constructor (url: Option<string>)
      ensures this.url == url
    {
      this.url := url;
    }
  }

  class YoutubeEmbed {
    const data: VideoRecord
    const readOnly: bool
    const config: Config
    var isEditing: bool
    var wrapper: Wrapper
    /** The input element of the last render; the button's click handler keeps reading it. */
    var input: Option<Input>
    /** The messages the user has been alerted with, oldest first. */
    var alerts: seq<string>

    /**
     * The tool's invariant: the wrapper holds an input while editing; once embedded, the
     * iframe shows the record's URL; and once the tool has left editing, the record holds a
     * normalised embed URL.
     */
    ghost predicate Valid()
      reads this, data
    {
      (wrapper.Unrendered? ==> isEditing && input.None?) &&
      (wrapper.Editing? ==> input.Some?) &&
      (wrapper.Embedded? ==> !isEditing && input.Some? && !input.value.invalid && data.url == Some(wrapper.iframeSrc)) &&
      (!isEditing ==> data.url.Some? && IsEmbedUrl(data.url.value))
    }

    /** The message of the alert on an invalid link: the configured text, or the default. */
    function InvalidText(): (text: string)
      ensures text != ""
      ensures IsSetting(config.invalidText, DefaultInvalidText, text)
    {
      OrDefault(config.invalidText, DefaultInvalidText)
    }

    /** The input `Render` creates, seeded with `text`: never marked, always classed and with a placeholder. */
    function FreshInput(text: string): (i: Input)
      ensures i.text == text && !i.invalid
      ensures i.cssClass != "" && i.placeholder != ""
      ensures IsSetting(config.inputClass, DefaultInputClass, i.cssClass)
      ensures IsSetting(config.inputPlaceholder, DefaultPlaceholder, i.placeholder)
    {
      Input(text, OrDefault(config.inputClass, DefaultInputClass), OrDefault(config.inputPlaceholder, DefaultPlaceholder), false)
    }

    /** The wrapper `Render` creates, holding the input and a labelled button. */
    function EditingWrapper(): (w: Wrapper)
      ensures w.Editing? && w.cssClass != "" && w.buttonClass != "" && w.buttonText != ""
      ensures IsSetting(config.wrapperClass, DefaultWrapperClass, w.cssClass)
      ensures IsSetting(config.buttonClass, DefaultButtonClass, w.buttonClass)
      ensures IsSetting(config.buttonText, DefaultButtonText, w.buttonText)
    {
      Editing(OrDefault(config.wrapperClass, DefaultWrapperClass), OrDefault(config.buttonClass, DefaultButtonClass),
              OrDefault(config.buttonText, DefaultButtonText))
    }

    constructor (data: VideoRecord, readOnly: bool, config: Option<Config>)
      ensures this.data == data && this.readOnly == readOnly
      ensures this.config == if config.Some? then config.value else NoConfig
      ensures isEditing && wrapper == Unrendered && input == None && alerts == []
      ensures Valid()
    {
      this.data := data;
      this.readOnly := readOnly;
      this.config := if config.Some? then config.value else NoConfig;
      isEditing := true;
      wrapper := Unrendered;
      input := None;
      alerts := [];
    }

    /**
     * The embed transition on `urlString`. An invalid link alerts the user, marks the input
     * invalid and changes nothing else. A valid one clears the mark, leaves editing, writes
     * the normalised URL to the record and replaces the wrapper's content with the iframe.
     */
    method CreateYoutubeIframe(urlString: string)
      requires Valid() && wrapper.Editing?
      modifies this, data
      ensures Valid()
      ensures IsValidUrl(urlString) ==>
                !isEditing && data.url == Some(ConvertToEmbedUrl(urlString)) &&
                wrapper == Embedded(old(wrapper).cssClass, ConvertToEmbedUrl(urlString)) &&
                input == Some(old(input).value.(invalid := false)) && alerts == old(alerts)
      ensures !IsValidUrl(urlString) ==>
                isEditing == old(isEditing) && data.url == old(data.url) && wrapper == old(wrapper) &&
                input == Some(old(input).value.(invalid := true)) && alerts == old(alerts) + [InvalidText()]
    {
      if !IsValidUrl(urlString) {
        alerts := alerts + [InvalidText()];
        input := Some(input.value.(invalid := true));
        return;
      }
      input := Some(input.value.(invalid := false));
      isEditing := false;
      data.url := Some(ConvertToEmbedUrl(urlString));
      wrapper := Embedded(wrapper.cssClass, data.url.value);
    }

    /** The user types `typed` into the input and presses the Embed button. */
    method Click(typed: string)
      requires Valid() && wrapper.Editing?
      modifies this, data
      ensures Valid()
      ensures IsValidUrl(typed) ==>
                !isEditing && data.url == Some(ConvertToEmbedUrl(typed)) &&
                wrapper == Embedded(old(wrapper).cssClass, ConvertToEmbedUrl(typed)) &&
                input == Some(old(input).value.(text := typed, invalid := false)) && alerts == old(alerts)
      ensures !IsValidUrl(typed) ==>
                isEditing == old(isEditing) && data.url == old(data.url) && wrapper == old(wrapper) &&
                input == Some(old(input).value.(text := typed, invalid := true)) && alerts == old(alerts) + [InvalidText()]
    {
      input := Some(input.value.(text := typed));
      CreateYoutubeIframe(input.value.text);
    }

    /**
     * Builds a fresh editing wrapper whose input holds the record's URL without its line
     * breaks (or nothing), and attempts an embed straight away when that text is not empty.
     * A block that was already embedded is embedded again, since its stripped URL is valid.
     */
    method Render() returns (view: Wrapper)
      requires Valid()
      modifies this, data
      ensures Valid() && view == wrapper
      ensures var seed := InputSeed(old(data.url));
              seed == "" ==>
                wrapper == EditingWrapper() && input == Some(FreshInput(seed)) &&
                isEditing == old(isEditing) && data.url == old(data.url) && alerts == old(alerts)
      ensures var seed := InputSeed(old(data.url));
              seed != "" && IsValidUrl(seed) ==>
                !isEditing && data.url == Some(ConvertToEmbedUrl(seed)) &&
                wrapper == Embedded(EditingWrapper().cssClass, ConvertToEmbedUrl(seed)) &&
                input == Some(FreshInput(seed)) && alerts == old(alerts)
      ensures var seed := InputSeed(old(data.url));
              seed != "" && !IsValidUrl(seed) ==>
                wrapper == EditingWrapper() && input == Some(FreshInput(seed).(invalid := true)) &&
                isEditing == old(isEditing) && data.url == old(data.url) && alerts == old(alerts) + [InvalidText()]
      ensures old(!isEditing) ==> !isEditing && wrapper.Embedded?
    {
      var seed := InputSeed(data.url);
      if !isEditing {
        StrippedEmbedUrlIsValid(data.url.value);
      }
      input := Some(FreshInput(seed));
      wrapper := EditingWrapper();
      if seed != "" {
        CreateYoutubeIframe(seed);
      }
      view := wrapper;
    }

    /** The record, the very object the editor handed over; normalised once the block is embedded. */
    method Save() returns (record: VideoRecord)
      requires Valid()
      ensures record == data
      ensures !isEditing ==> record.url.Some? && IsEmbedUrl(record.url.value)
    {
      record := data;
    }
  }

  /** The embed URL of a video id holds no line break, so the input shows it as it is. */
  lemma VideoUrlSeed(id: string)
    requires IsVideoId(id)
    ensures InputSeed(Some(EmbedPrefix + id)) == EmbedPrefix + id
  {
    var url := EmbedPrefix + id;
    forall j | 0 <= j < |url| ensures !IsNewline(url[j]) {
      if j < |EmbedPrefix| {
        PrefixUnitIsPrintable(j);
      } else {
        assert url[j] == id[j - |EmbedPrefix|];
      }
    }
    StripNewlinesKeepsClean(url);
  }

  /** A new, empty block: the user pastes the short link of video `id` and presses Embed. */
  method PasteShortLink(id: string) returns (saved: Option<string>, view: Wrapper, shown: seq<string>)
    requires IsVideoId(id) && id[0] != 'v'
    ensures saved == Some(EmbedPrefix + id)
    ensures view == Embedded(DefaultWrapperClass, EmbedPrefix + id)
    ensures shown == []
  {
    var record := new VideoRecord(None);
    var tool := new YoutubeEmbed(record, false, None);
    view := tool.Render();
    ShortLinkConverts(id);
    tool.Click(ShortLinkPrefix + id);
    var r := tool.Save();
    saved, view, shown := r.url, tool.wrapper, tool.alerts;
  }

  /** A new, empty block: the user pastes a link to another site and presses Embed. */
  method PasteOtherSite(host: string) returns (saved: Option<string>, view: Wrapper, marked: bool, shown: seq<string>)
    requires forall t :: 0 <= t < |host| ==> host[t] != '/' && host[t] != '?'
    ensures saved == None
    ensures view == Editing(DefaultWrapperClass, DefaultButtonClass, DefaultButtonText)
    ensures marked
    ensures shown == [DefaultInvalidText]
  {
    var record := new VideoRecord(None);
    var tool := new YoutubeEmbed(record, false, None);
    view := tool.Render();
    OtherSiteIsInvalid(host);
    tool.Click(HttpsScheme + host);
    var r := tool.Save();
    saved, view, marked, shown := r.url, tool.wrapper, tool.input.value.invalid, tool.alerts;
  }

  /**
   * A saved block is opened again: rendering embeds it at once. Its record keeps its URL
   * exactly when the id does not begin with `v`; otherwise the record now holds the fallback.
   */
  method Reopen(id: string) returns (saved: Option<string>, view: Wrapper)
    requires IsVideoId(id)
    ensures saved == Some(if id[0] == 'v' then FallbackUrl else EmbedPrefix + id)
    ensures view.Embedded? && view.iframeSrc == saved.value
  {
    var url := EmbedPrefix + id;
    VideoUrlSeed(id);
    VideoUrlReconverts(id);
    var record := new VideoRecord(Some(url));
    var tool := new YoutubeEmbed(record, false, None);
    view := tool.Render();
    var r := tool.Save();
    saved := r.url;
  }
}

=== FILE: youtube_url.dfy ===
/**
 * The YouTube URL recogniser and normaliser of the embed tool.
 *
 * Both operations apply one regular expression,
 *   ^.*((youtu.be\/)|(v\/)|(\/u\/\w\/)|(embed\/)|(watch\?))\??v?=?([^#&?]*).*
 * which is written out here as a deterministic matcher:
 *  - the greedy `^.*` backtracks from the right, so the match starts its marker group
 *    at the RIGHTMOST position, within the first line, where one of five markers begins;
 *  - after the marker, an optional `?`, `v` and `=` are each taken when present;
 *  - group 7 is the longest run of code units that are not `#`, `&` or `?`;
 *  - the trailing `.*` always matches, so the first marker position tried wins.
 * A string is a sequence of UTF-16 code units, one `char` per unit.
 */
module YoutubeUrl {
  import opened Wrappers

  /** Every normalised URL starts with this prefix. */
  const EmbedPrefix: string := "https://www.youtube.com/embed/"

  /** The length of a YouTube video id. */
  const IdLength: nat := 11

  /** The video id substituted when no 11-unit id was captured. */
  const FallbackId: string := "wvLddabQ1nc"

  const FallbackUrl: string := EmbedPrefix + FallbackId

  /** The code units that `.` does not match. */
  predicate IsLineTerminator(c: char) {
    c == '\n' || c == '\r' || c == '\U{2028}' || c == '\U{2029}'
  }

  /** `\w`: ASCII letters, digits and the underscore. */
  predicate IsWordChar(c: char) {
    ('a' <= c <= 'z') || ('A' <= c <= 'Z') || ('0' <= c <= '9') || c == '_'
  }

  /** The code units that end group 7, `[^#&?]*`. */
  predicate IsIdStop(c: char) {
    c == '#' || c == '&' || c == '?'
  }

  /** The literal `lit` occurs in `s` at position `i`. */
  predicate LiteralAt(s: string, i: nat, lit: string) {
    i + |lit| <= |s| && s[i..i + |lit|] == lit
  }

  /** The five alternatives of the marker group, in the order the pattern lists them. */
  datatype Marker = YoutuBe | VSlash | UserSlash | Embed | Watch

  function MarkerLength(m: Marker): (n: nat) {
    match m
    case YoutuBe => 9
    case VSlash => 2
    case UserSlash => 5
    case Embed => 6
    case Watch => 6
  }

  function FirstUnit(m: Marker): (c: char) {
    match m
    case YoutuBe => 'y'
    case VSlash => 'v'
    case UserSlash => '/'
    case Embed => 'e'
    case Watch => 'w'
  }

  function LastUnit(m: Marker): (c: char) {
    if m == Watch then '?' else '/'
  }

  /** Alternative `m` of the marker group matches `s` at position `i`. */
  predicate MarkerMatches(s: string, i: nat, m: Marker) {
    match m
    // `youtu.be\/`: the dot is unescaped, so any code unit but a line terminator
    case YoutuBe =>
      LiteralAt(s, i, "youtu") && i + 9 <= |s| && !IsLineTerminator(s[i + 5]) && LiteralAt(s, i + 6, "be/")
    case VSlash => LiteralAt(s, i, "v/")
    case UserSlash => LiteralAt(s, i, "/u/") && i + 5 <= |s| && IsWordChar(s[i + 3]) && s[i + 4] == '/'
    case Embed => LiteralAt(s, i, "embed/")
    case Watch => LiteralAt(s, i, "watch?")
  }

  /** A matching marker fits in `s`, lies within one line, and starts and ends with its fixed units. */
  lemma MarkerShape(s: string, i: nat, m: Marker)
    requires MarkerMatches(s, i, m)
    ensures i + MarkerLength(m) <= |s|
    ensures s[i] == FirstUnit(m) && s[i + MarkerLength(m) - 1] == LastUnit(m)
    ensures forall t :: i <= t < i + MarkerLength(m) ==> !IsLineTerminator(s[t])
  {
    var n := MarkerLength(m);
    match m
    case YoutuBe =>
      assert s[i..i + 5][0] == s[i];
      assert s[i + 6..i + 9][2] == s[i + 8];
      forall t | i <= t < i + n ensures !IsLineTerminator(s[t]) {
        if t < i + 5 { assert s[i..i + 5][t - i] == s[t]; }
        else if t > i + 5 { assert s[i + 6..i + 9][t - i - 6] == s[t]; }
      }
    case UserSlash =>
      assert s[i..i + 3][0] == s[i];
      forall t | i <= t < i + n ensures !IsLineTerminator(s[t]) {
        if t < i + 3 { assert s[i..i + 3][t - i] == s[t]; }
      }
    case _ =>
      var lit := s[i..i + n];
      assert lit[0] == s[i] && lit[n - 1] == s[i + n - 1];
      forall t | i <= t < i + n ensures !IsLineTerminator(s[t]) {
        assert lit[t - i] == s[t];
      }
  }

  /** The markers begin with different code units, so at most one matches at any position. */
  lemma MarkersExclusive(s: string, i: nat, m1: Marker, m2: Marker)
    requires MarkerMatches(s, i, m1) && MarkerMatches(s, i, m2)
    ensures m1 == m2
  {
    MarkerShape(s, i, m1);
    MarkerShape(s, i, m2);
  }

  /** The alternative the pattern takes at `i`: the only one that matches there, if any. */
  function MarkerAt(s: string, i: nat): (r: Option<Marker>)
    ensures forall m :: MarkerMatches(s, i, m) <==> r == Some(m)
  {
    var r :=
      if MarkerMatches(s, i, YoutuBe) then Some(YoutuBe)
      else if MarkerMatches(s, i, VSlash) then Some(VSlash)
      else if MarkerMatches(s, i, UserSlash) then Some(UserSlash)
      else if MarkerMatches(s, i, Embed) then Some(Embed)
      else if MarkerMatches(s, i, Watch) then Some(Watch)
      else None;
    assert forall m | MarkerMatches(s, i, m) :: r == Some(m) by {
      forall m | MarkerMatches(s, i, m) ensures r == Some(m) {
        MarkersExclusive(s, i, m, r.value);
      }
    }
    r
  }

  /** The length of the first line: the index of the first line terminator, or |s| if none. */
  function FirstLineEnd(s: string): (n: nat)
    ensures n <= |s|
    ensures forall j :: 0 <= j < n ==> !IsLineTerminator(s[j])
    ensures n < |s| ==> IsLineTerminator(s[n])
  {
    if s == [] || IsLineTerminator(s[0]) then 0 else 1 + FirstLineEnd(s[1..])
  }

  /**
   * The greedy `^.*` in front of the marker group: the largest start `k <= hi`
   * at which a marker begins, trying `hi` first and moving left.
   */
  function RightmostMarker(s: string, hi: nat): (r: Option<nat>)
    ensures r.Some? ==> r.value <= hi && MarkerAt(s, r.value).Some?
    ensures forall j: nat :: j <= hi && (r.None? || r.value < j) ==> MarkerAt(s, j).None?
    decreases hi
  {
    if MarkerAt(s, hi).Some? then Some(hi)
    else if hi == 0 then None
    else RightmostMarker(s, hi - 1)
  }

  /** `c?`, greedy: skip one `c` at `p` when it is there. */
  function SkipOptional(s: string, p: nat, c: char): (q: nat)
    ensures q == p || q == p + 1
    ensures q == p + 1 <==> p < |s| && s[p] == c
  {
    if p < |s| && s[p] == c then p + 1 else p
  }

  /** The texts `\??v?=?` can match: `?`, `v` and `=`, each at most once, in that order. */
  predicate IsOptionals(w: string) {
    w == "" || w == "?" || w == "v" || w == "=" || w == "?v" || w == "?=" || w == "v=" || w == "?v="
  }

  /** `\??v?=?`: where group 7 starts when the marker ends at `e`. */
  function IdStart(s: string, e: nat): (p: nat)
    ensures e <= p <= e + 3
    ensures forall t :: e <= t < p ==> t < |s| && (s[t] == '?' || s[t] == 'v' || s[t] == '=')
  {
    SkipOptional(s, SkipOptional(s, SkipOptional(s, e, '?'), 'v'), '=')
  }

  /** The units `\??v?=?` skips are `?`, `v` and `=`, each at most once and in that order. */
  lemma IdStartSkipsOptionals(s: string, e: nat)
    requires e <= |s|
    ensures IdStart(s, e) <= |s| && IsOptionals(s[e..IdStart(s, e)])
  {
    var afterQuery := SkipOptional(s, e, '?');
    var afterV := SkipOptional(s, afterQuery, 'v');
    var p := SkipOptional(s, afterV, '=');
    SkippedUnit(s, e, '?');
    SkippedUnit(s, afterQuery, 'v');
    SkippedUnit(s, afterV, '=');
    assert s[e..p] == s[e..afterQuery] + s[afterQuery..afterV] + s[afterV..p];
  }

  /**
   * Each of the optional `?`, `v`, `=` is taken when present, so no longer stretch from `e`
   * is one the three could match.
   */
  lemma IdStartIsGreedy(s: string, e: nat)
    ensures forall q :: IdStart(s, e) < q <= |s| && q <= e + 3 ==> !IsOptionals(s[e..q])
  {
    var p := IdStart(s, e);
    forall q | p < q <= |s| && q <= e + 3 ensures !IsOptionals(s[e..q]) {
      if q == e + 1 {
        assert s[e..q] == [s[e]];
      } else if q == e + 2 {
        assert s[e..q] == [s[e], s[e + 1]];
      } else {
        assert s[e..q] == [s[e], s[e + 1], s[e + 2]];
      }
    }
  }

  /** What one greedy `c?` skips: `c` itself, or nothing. */
  lemma SkippedUnit(s: string, p: nat, c: char)
    requires p <= |s|
    ensures SkipOptional(s, p, c) <= |s|
    ensures s[p..SkipOptional(s, p, c)] == if SkipOptional(s, p, c) == p + 1 then [c] else []
  {
  }

  /** `id` is the longest run of `s` from `p` that holds no `#`, `&` or `?`. */
  predicate IsLongestRun(s: string, p: nat, id: string) {
    p + |id| <= |s| && id == s[p..p + |id|] &&
    (forall j :: 0 <= j < |id| ==> !IsIdStop(id[j])) &&
    (p + |id| == |s| || IsIdStop(s[p + |id|]))
  }

  /** Group 7, `([^#&?]*)`, is greedy: it takes the longest run. */
  function IdRun(s: string, p: nat): (id: string)
    requires p <= |s|
    ensures IsLongestRun(s, p, id)
    decreases |s| - p
  {
    if p == |s| || IsIdStop(s[p]) then [] else [s[p]] + IdRun(s, p + 1)
  }

  /** A longest run reaches at least as far as any stretch without `#`, `&` or `?`. */
  lemma LongestRunCovers(s: string, p: nat, id: string, n: nat)
    requires IsLongestRun(s, p, id)
    requires p + n <= |s| && forall j :: p <= j < p + n ==> !IsIdStop(s[j])
    ensures n <= |id|
  {
  }

  /** There is only one longest run from a given position. */
  lemma LongestRunUnique(s: string, p: nat, id1: string, id2: string)
    requires IsLongestRun(s, p, id1) && IsLongestRun(s, p, id2)
    ensures id1 == id2
  {
    forall j | p <= j < p + |id2| ensures !IsIdStop(s[j]) {
      assert s[j] == id2[j - p];
    }
    LongestRunCovers(s, p, id1, |id2|);
    forall j | p <= j < p + |id1| ensures !IsIdStop(s[j]) {
      assert s[j] == id1[j - p];
    }
    LongestRunCovers(s, p, id2, |id1|);
  }

  /** Some marker begins in the first line of `s`. */
  predicate HasMarker(s: string) {
    exists k: nat, m :: k <= FirstLineEnd(s) && MarkerMatches(s, k, m)
  }

  /**
   * Marker `m` begins at `k` in the first line of `s`, and no marker begins further right
   * in that line: the position at which the greedy `^.*` hands over to the marker group.
   */
  predicate IsRightmostMarker(s: string, k: nat, m: Marker) {
    k <= FirstLineEnd(s) && MarkerMatches(s, k, m) &&
    forall j: nat, m' :: k < j <= FirstLineEnd(s) ==> !MarkerMatches(s, j, m')
  }

  /** The hand-over position, and the marker taken there, are unique. */
  lemma RightmostMarkerUnique(s: string, k1: nat, m1: Marker, k2: nat, m2: Marker)
    requires IsRightmostMarker(s, k1, m1) && IsRightmostMarker(s, k2, m2)
    ensures k1 == k2 && m1 == m2
  {
    if k1 < k2 {
      assert false;
    } else if k2 < k1 {
      assert false;
    }
    MarkersExclusive(s, k1, m1, m2);
  }

  /** A successful match: where the marker group starts, which marker it took, and group 7. */
  datatype UrlMatch = UrlMatch(markerStart: nat, marker: Marker, idStart: nat, id: string)

  /** `url.match(regExp)`: None for JavaScript's null. */
  function Match(s: string): (r: Option<UrlMatch>)
    ensures r.Some? <==> HasMarker(s)
    ensures r.Some? ==>
              IsRightmostMarker(s, r.value.markerStart, r.value.marker) &&
              r.value.idStart == IdStart(s, r.value.markerStart + MarkerLength(r.value.marker)) &&
              IsLongestRun(s, r.value.idStart, r.value.id)
  {
    var hi := FirstLineEnd(s);
    match RightmostMarker(s, hi)
    case None =>
      assert !HasMarker(s) by {
        forall k: nat, m | k <= hi ensures !MarkerMatches(s, k, m) {
          assert MarkerAt(s, k).None?;
        }
      }
      None
    case Some(k) =>
      var m := MarkerAt(s, k).value;
      MarkerShape(s, k, m);
      var p := IdStart(s, k + MarkerLength(m));
      assert IsRightmostMarker(s, k, m) by {
        forall j: nat, m' | k < j <= hi ensures !MarkerMatches(s, j, m') {
          assert MarkerAt(s, j).None?;
        }
      }
      Some(UrlMatch(k, m, p, IdRun(s, p)))
  }

  /** `__isValidURL`: false for the empty string, otherwise whether the pattern matches. */
  function IsValidUrl(url: string): (valid: bool)
    ensures url == [] ==> !valid
    ensures valid <==> HasMarker(url)
  {
    if url == [] then false else Match(url).Some?
  }

  /** A normalised embed URL: the prefix and an 11-unit id holding no `#`, `&` or `?`. */
  predicate IsEmbedUrl(u: string) {
    |u| == |EmbedPrefix| + IdLength && u[..|EmbedPrefix|] == EmbedPrefix &&
    forall j :: |EmbedPrefix| <= j < |u| ==> !IsIdStop(u[j])
  }

  /**
   * `_convertToEmbedUrl`: the embed URL of the captured id when it has 11 units,
   * the fallback video otherwise. Total: every result is a normalised embed URL.
   */
  function ConvertToEmbedUrl(url: string): (embed: string)
    ensures IsEmbedUrl(embed)
    ensures !IsValidUrl(url) ==> embed == FallbackUrl
  {
    match Match(url)
    case Some(r) =>
      if |r.id| == IdLength then EmbedPrefix + r.id else FallbackUrl
    case None => FallbackUrl
  }

  /**
   * Conversion, stated without the search: when marker `m` at `k` is where the greedy
   * `^.*` hands over, and `id` is the longest run without `#`, `&` or `?` after the
   * optional `?`, `v` and `=`, the result keeps `id` exactly when it has 11 units.
   */
  lemma ConvertFromRightmostMarker(url: string, k: nat, m: Marker, id: string)
    requires IsRightmostMarker(url, k, m)
    requires IsLongestRun(url, IdStart(url, k + MarkerLength(m)), id)
    ensures ConvertToEmbedUrl(url) == if |id| == IdLength then EmbedPrefix + id else FallbackUrl
  {
    assert HasMarker(url);
    var r := Match(url).value;
    RightmostMarkerUnique(url, k, m, r.markerStart, r.marker);
    LongestRunUnique(url, r.idStart, id, r.id);
  }

  /** A marker whose first or last fixed unit is missing does not match. */
  lemma NoMarkerAt(s: string, j: nat, m: Marker)
    requires j + MarkerLength(m) <= |s| ==>
               s[j] != FirstUnit(m) || s[j + MarkerLength(m) - 1] != LastUnit(m)
    ensures !MarkerMatches(s, j, m)
  {
    if MarkerMatches(s, j, m) {
      MarkerShape(s, j, m);
    }
  }

  /** The prefix is printable ASCII. */
  lemma PrefixUnitIsPrintable(j: nat)
    requires j < |EmbedPrefix|
    ensures ' ' < EmbedPrefix[j] <= '~'
  {
  }

  /** No unit of the prefix ends a line, so the first line of an embed URL covers the prefix. */
  lemma PrefixInFirstLine(id: string)
    ensures FirstLineEnd(EmbedPrefix + id) >= |EmbedPrefix|
  {
    var s := EmbedPrefix + id;
    forall j | 0 <= j < |EmbedPrefix| ensures !IsLineTerminator(s[j]) {
      PrefixUnitIsPrintable(j);
      assert s[j] == EmbedPrefix[j];
    }
  }

  /** The `embed/` at the end of the prefix is the rightmost marker of any 11-unit id without `/` or `?`. */
  lemma EmbedMarkerIsRightmost(id: string)
    requires |id| == IdLength
    requires forall j :: 0 <= j < |id| ==> id[j] != '/' && id[j] != '?'
    ensures IsRightmostMarker(EmbedPrefix + id, 24, Embed)
  {
    var s := EmbedPrefix + id;
    PrefixInFirstLine(id);
    assert s[24..30] == "embed/";
    forall j: nat, m | 24 < j <= FirstLineEnd(s) ensures !MarkerMatches(s, j, m) {
      var last := j + MarkerLength(m) - 1;
      if last < |s| {
        if last >= |EmbedPrefix| {
          assert s[last] == id[last - |EmbedPrefix|];
        } else {
          assert s[j] == EmbedPrefix[j];
        }
      }
      NoMarkerAt(s, j, m);
    }
  }

  /**
   * Converting a normalised URL again gives it back exactly when its id does not begin
   * with `v` or `=`: the optional `v?=?` after `embed/` swallows such a first unit, and
   * the units left (10, or 9 after `v=`) fail the length test.
   */
  lemma ConvertEmbedUrl(id: string)
    requires |id| == IdLength
    requires forall j :: 0 <= j < |id| ==> id[j] != '/' && !IsIdStop(id[j])
    ensures ConvertToEmbedUrl(EmbedPrefix + id) ==
              if id[0] == 'v' || id[0] == '=' then FallbackUrl else EmbedPrefix + id
    ensures ConvertToEmbedUrl(EmbedPrefix + id) == EmbedPrefix + id <==> id[0] != 'v' && id[0] != '='
  {
    var s := EmbedPrefix + id;
    EmbedMarkerIsRightmost(id);
    var p := IdStart(s, 30);
    assert 30 <= p <= 32;
    var run := s[p..];
    forall j | 0 <= j < |run| ensures !IsIdStop(run[j]) {
      assert run[j] == id[p + j - 30];
    }
    assert IsLongestRun(s, p, run);
    ConvertFromRightmostMarker(s, 24, Embed, run);
    if id[0] != 'v' && id[0] != '=' {
      assert p == 30 && s == EmbedPrefix + run;
    } else {
      assert |run| < IdLength;
      assert FallbackUrl[30] != s[30];
    }
  }

  /** The fallback URL converts to itself. */
  lemma FallbackIsFixedPoint()
    ensures ConvertToEmbedUrl(FallbackUrl) == FallbackUrl
  {
    ConvertEmbedUrl(FallbackId);
  }

  /** A second conversion changes nothing when the first one produced an id without `/` that does not begin with `v` or `=`. */
  lemma ConvertTwice(url: string)
    requires var id := ConvertToEmbedUrl(url)[|EmbedPrefix|..];
             (forall j :: 0 <= j < |id| ==> id[j] != '/') && id[0] != 'v' && id[0] != '='
    ensures ConvertToEmbedUrl(ConvertToEmbedUrl(url)) == ConvertToEmbedUrl(url)
  {
    var u := ConvertToEmbedUrl(url);
    var id := u[|EmbedPrefix|..];
    assert u == EmbedPrefix + id;
    forall j | 0 <= j < |id| ensures !IsIdStop(id[j]) {
      assert id[j] == u[j + |EmbedPrefix|];
    }
    ConvertEmbedUrl(id);
  }

  /** Whatever follows the embed prefix, the `embed/` it ends with is a marker in the first line. */
  lemma PrefixedIsValid(t: string)
    ensures IsValidUrl(EmbedPrefix + t)
  {
    var u := EmbedPrefix + t;
    PrefixInFirstLine(t);
    assert u[24..30] == "embed/";
    assert MarkerMatches(u, 24, Embed);
  }

  /** Every normalised URL is a valid one. */
  lemma EmbedUrlIsValid(u: string)
    requires IsEmbedUrl(u)
    ensures IsValidUrl(u)
  {
    var id := u[|EmbedPrefix|..];
    assert u == EmbedPrefix + id;
    PrefixedIsValid(id);
  }

  /** No marker starts at a unit that begins none of them. */
  lemma NoMarkerStartsWith(s: string, j: nat)
    requires j < |s| ==> s[j] != 'y' && s[j] != 'v' && s[j] != '/' && s[j] != 'e' && s[j] != 'w'
    ensures forall m :: !MarkerMatches(s, j, m)
  {
    forall m ensures !MarkerMatches(s, j, m) {
      NoMarkerAt(s, j, m);
    }
  }

  /** Every marker ends in `/` or `?`, so none starts at or after `lo` when no such unit follows `lo`. */
  lemma NoMarkerFrom(s: string, lo: nat)
    requires forall t :: lo < t < |s| ==> s[t] != '/' && s[t] != '?'
    ensures forall j: nat, m :: lo <= j ==> !MarkerMatches(s, j, m)
  {
    forall j: nat, m | lo <= j ensures !MarkerMatches(s, j, m) {
      NoMarkerAt(s, j, m);
    }
  }

  /** A unit of YouTube's id alphabet: a word unit or `-`. */
  predicate IsIdUnit(c: char) {
    IsWordChar(c) || c == '-'
  }

  predicate IsVideoId(id: string) {
    |id| == IdLength && forall j :: 0 <= j < |id| ==> IsIdUnit(id[j])
  }

  /** A video id holds no `/`, `#`, `&` or `?`, so the prefix and the id form a normalised URL. */
  lemma VideoIdIsEmbeddable(id: string)
    requires IsVideoId(id)
    ensures IsEmbedUrl(EmbedPrefix + id)
  {
    VideoIdIsClean(id);
    var u := EmbedPrefix + id;
    forall j | |EmbedPrefix| <= j < |u| ensures !IsIdStop(u[j]) {
      assert u[j] == id[j - |EmbedPrefix|];
    }
    assert u[..|EmbedPrefix|] == EmbedPrefix;
  }

  /** The embed URL of a video id is valid, and converts to itself unless the id begins with `v`. */
  lemma VideoUrlReconverts(id: string)
    requires IsVideoId(id)
    ensures EmbedPrefix + id != "" && IsValidUrl(EmbedPrefix + id)
    ensures ConvertToEmbedUrl(EmbedPrefix + id) == if id[0] == 'v' then FallbackUrl else EmbedPrefix + id
  {
    PrefixedIsValid(id);
    VideoIdIsClean(id);
    ConvertEmbedUrl(id);
  }

  /** A video id holds no `/`, `#`, `&` or `?`. */
  lemma VideoIdIsClean(id: string)
    requires IsVideoId(id)
    ensures forall j :: 0 <= j < |id| ==> id[j] != '/' && !IsIdStop(id[j])
  {
    forall j | 0 <= j < |id| ensures id[j] != '/' && !IsIdStop(id[j]) {
      assert IsIdUnit(id[j]);
    }
  }

  /** The share link the site hands out: `https://www.youtu.be/<id>`. */
  const ShortLinkPrefix: string := "https://www.youtu.be/"

  /** The watch page: `https://www.youtube.com/watch?v=<id>`, possibly followed by `&` or `#` parameters. */
  const WatchLinkPrefix: string := "https://www.youtube.com/watch?v="

  /** Both link prefixes are printable ASCII. */
  lemma LinkPrefixesPrintable(j: nat)
    ensures j < |ShortLinkPrefix| ==> ' ' < ShortLinkPrefix[j] <= '~'
    ensures j < |WatchLinkPrefix| ==> ' ' < WatchLinkPrefix[j] <= '~'
  {
  }

  /** The first line of a link spans at least its printable prefix. */
  lemma LinkLine(s: string, n: nat)
    requires n <= |s| && forall j :: 0 <= j < n ==> ' ' < s[j] <= '~'
    ensures FirstLineEnd(s) >= n
  {
  }

  /** A marker in the first line with none after it is the rightmost one. */
  lemma LastMarkerIsRightmost(s: string, k: nat, m: Marker)
    requires k <= FirstLineEnd(s) && MarkerMatches(s, k, m)
    requires forall j: nat, m' :: k < j ==> !MarkerMatches(s, j, m')
    ensures IsRightmostMarker(s, k, m)
  {
  }

  /** A short link's first line covers its prefix, whose `youtu.be/` is a marker. */
  lemma ShortLinkPrefixMarker(id: string)
    ensures FirstLineEnd(ShortLinkPrefix + id) >= 21 && MarkerMatches(ShortLinkPrefix + id, 12, YoutuBe)
  {
    var s := ShortLinkPrefix + id;
    forall j | 0 <= j < 21 ensures ' ' < s[j] <= '~' {
      LinkPrefixesPrintable(j);
    }
    LinkLine(s, 21);
    assert s[12..17] == "youtu" && s[18..21] == "be/";
  }

  /** After the `y` of `youtu.be/`, no marker begins in a short link. */
  lemma ShortLinkNoLaterMarker(id: string)
    requires IsVideoId(id)
    ensures forall j: nat, m :: 12 < j ==> !MarkerMatches(ShortLinkPrefix + id, j, m)
  {
    var s := ShortLinkPrefix + id;
    forall j: nat, m | 12 < j < 19 ensures !MarkerMatches(s, j, m) {
      NoMarkerStartsWith(s, j);
    }
    forall m ensures !MarkerMatches(s, 19, m) {
      NoMarkerAt(s, 19, m);
    }
    NoMarkerFrom(s, 20);
  }

  /** In a short link, `youtu.be/` is where the marker group starts. */
  lemma ShortLinkMarker(id: string)
    requires IsVideoId(id)
    ensures IsRightmostMarker(ShortLinkPrefix + id, 12, YoutuBe)
  {
    ShortLinkPrefixMarker(id);
    ShortLinkNoLaterMarker(id);
    LastMarkerIsRightmost(ShortLinkPrefix + id, 12, YoutuBe);
  }

  /**
   * A short link keeps its id, unless the id begins with `v`: the optional `v?` after
   * `youtu.be/` then takes that unit and the 10 left fall back.
   */
  lemma ShortLinkConverts(id: string)
    requires IsVideoId(id)
    ensures IsValidUrl(ShortLinkPrefix + id)
    ensures ConvertToEmbedUrl(ShortLinkPrefix + id) == if id[0] == 'v' then FallbackUrl else EmbedPrefix + id
  {
    var s := ShortLinkPrefix + id;
    ShortLinkMarker(id);
    var p := IdStart(s, 21);
    assert p == if id[0] == 'v' then 22 else 21;
    assert IsLongestRun(s, p, s[p..]);
    ConvertFromRightmostMarker(s, 12, YoutuBe, s[p..]);
    if id[0] != 'v' {
      assert s[p..] == id;
    }
  }

  /** In a watch link, `watch?` is where the marker group starts. */
  lemma WatchLinkMarker(id: string, rest: string)
    requires IsVideoId(id)
    requires forall j :: 0 <= j < |rest| ==> rest[j] != '/' && rest[j] != '?'
    ensures IsRightmostMarker(WatchLinkPrefix + id + rest, 24, Watch)
  {
    WatchLinkPrefixMarker(id + rest);
    assert WatchLinkPrefix + id + rest == WatchLinkPrefix + (id + rest);
    WatchLinkNoLaterMarker(id, rest);
    LastMarkerIsRightmost(WatchLinkPrefix + id + rest, 24, Watch);
  }

  /** A watch link's first line covers its prefix, whose `watch?` is a marker. */
  lemma WatchLinkPrefixMarker(tail: string)
    ensures FirstLineEnd(WatchLinkPrefix + tail) >= 32 && MarkerMatches(WatchLinkPrefix + tail, 24, Watch)
  {
    var s := WatchLinkPrefix + tail;
    forall j | 0 <= j < 32 ensures ' ' < s[j] <= '~' {
      LinkPrefixesPrintable(j);
    }
    LinkLine(s, 32);
    assert s[24..30] == "watch?";
  }

  /** After the `w` of `watch?`, no marker begins in a watch link. */
  lemma WatchLinkNoLaterMarker(id: string, rest: string)
    requires IsVideoId(id)
    requires forall j :: 0 <= j < |rest| ==> rest[j] != '/' && rest[j] != '?'
    ensures forall j: nat, m :: 24 < j ==> !MarkerMatches(WatchLinkPrefix + id + rest, j, m)
  {
    var s := WatchLinkPrefix + id + rest;
    forall j: nat, m | 24 < j < 30 ensures !MarkerMatches(s, j, m) {
      NoMarkerStartsWith(s, j);
    }
    forall m ensures !MarkerMatches(s, 30, m) {
      NoMarkerAt(s, 30, m);
    }
    NoMarkerFrom(s, 31);
  }

  /** A watch link keeps its id when what follows starts at `&` or `#` and holds no `/` or `?`. */
  lemma WatchLinkConverts(id: string, rest: string)
    requires IsVideoId(id)
    requires rest == [] || rest[0] == '&' || rest[0] == '#'
    requires forall j :: 0 <= j < |rest| ==> rest[j] != '/' && rest[j] != '?'
    ensures IsValidUrl(WatchLinkPrefix + id + rest)
    ensures ConvertToEmbedUrl(WatchLinkPrefix + id + rest) == EmbedPrefix + id
  {
    WatchLinkMarker(id, rest);
    WatchLinkId(id, rest);
    ConvertFromRightmostMarker(WatchLinkPrefix + id + rest, 24, Watch, id);
  }

  /** In a watch link, the `v=` after `watch?` is skipped and group 7 is the id. */
  lemma WatchLinkId(id: string, rest: string)
    requires IsVideoId(id)
    requires rest == [] || rest[0] == '&' || rest[0] == '#'
    ensures IdStart(WatchLinkPrefix + id + rest, 30) == 32
    ensures IsLongestRun(WatchLinkPrefix + id + rest, 32, id)
  {
    var s := WatchLinkPrefix + id + rest;
    assert s[30] == 'v' && s[31] == '=';
    assert s[32..43] == id;
    forall j | 0 <= j < |id| ensures !IsIdStop(id[j]) {
      assert IsIdUnit(id[j]);
    }
  }

  /** Every marker ends in `/` or `?`: a string holding neither is not valid and falls back. */
  lemma WithoutSlashOrQuestionIsInvalid(url: string)
    requires forall t :: 0 <= t < |url| ==> url[t] != '/' && url[t] != '?'
    ensures !IsValidUrl(url)
    ensures ConvertToEmbedUrl(url) == FallbackUrl
  {
    NoMarkerFrom(url, 0);
  }

  const HttpsScheme: string := "https://"

  /** A link to another site, `https://` and a host with no path or query, is not valid and falls back. */
  lemma OtherSiteIsInvalid(host: string)
    requires forall t :: 0 <= t < |host| ==> host[t] != '/' && host[t] != '?'
    ensures !IsValidUrl(HttpsScheme + host)
    ensures ConvertToEmbedUrl(HttpsScheme + host) == FallbackUrl
  {
    OtherSiteHasNoMarker(host);
    assert !HasMarker(HttpsScheme + host);
  }

  /** No marker begins anywhere in `https://` followed by a host with no `/` or `?`. */
  lemma OtherSiteHasNoMarker(host: string)
    requires forall t :: 0 <= t < |host| ==> host[t] != '/' && host[t] != '?'
    ensures forall j: nat, m :: !MarkerMatches(HttpsScheme + host, j, m)
  {
    var s := HttpsScheme + host;
    forall j: nat, m | j < 6 ensures !MarkerMatches(s, j, m) {
      NoMarkerStartsWith(s, j);
    }
    forall m ensures !MarkerMatches(s, 6, m) {
      NoMarkerAt(s, 6, m);
    }
    NoMarkerFrom(s, 7);
  }
}
